=== FILE: README.md ===
# Notice module: a verified model

The notice module of an openIMIS back end lets authorised staff publish
notices to health facilities. It handles notices, the file or URL
attachments that belong to them, and an audit link from each notice to the
mutation-log records that touched it.

This project models the module's core in Dafny:

- **Record shapes** (`models.dfy`, module `NoticeModels`). `Notice`,
  `NoticeAttachment` and the audit row are datatypes. The model also covers
  their choices, their defaults, and the two text forms.
- **Mutation handlers** (`mutations.dfy`, module `NoticeMutations`). Seven
  handlers are methods of a `NoticeStore` class:
  - create, partially update, soft-delete a batch of, and toggle notices;
  - create, update and hard-delete attachments.

  The class holds the notice table, the attachment table, the known
  facility ids and the audit table. Every handler passes the same gate
  first: authentication, then the operation's permission. A handler returns
  `None` on success or a list of (message, detail) pairs. Each method states
  its whole new state, and it keeps the store's integrity invariant
  `Valid()`.
- **Audit hook and attachment listing** (`schema.dfy`, module
  `NoticeSchema`). The hook is connected to the module's mutation-validation
  signal and appends one audit row per stored notice the mutation names.
  The listing is a permission gate followed by a filter.
- **Configuration** (`apps.dfy`, module `NoticeApps`). This covers the
  default configuration and the start-up step. That step copies a
  configuration onto the attributes the configuration class has (its name
  and the seventeen declared settings) and drops every other key.

The proof obligations fall into four groups:

- **Bulk soft delete.** The delete loop is proved against a specification
  function, `SoftDeleteAll`. Lemmas about that function prove three things:
  - which notices end inactive;
  - that unlisted notices are untouched;
  - that exactly one "Notice not found" pair is reported per uuid that was
    inactive, unknown or repeated, in input order.
- **Audit hook.** Its loop is proved to add exactly one row per matched
  notice.
- **Configuration merge.** It is proved idempotent, it ignores keys the
  class does not declare, and with the defaults it sets all seventeen
  declared settings.
- **Attachment listing.** Its permission check is shown to refuse the very
  holder of the permission it names (see Findings).

Some facts about the code that the model keeps as written:

- **Priority on create.** Create stores the priority it is given. It checks
  it neither against the configured priority options nor against the model
  choices, and the configured default priority ("Low") is never read.
- **No length checks.** No handler compares a title or a description with
  the configured maximum lengths.
- **No email on create.** The create handler sends no email.
- **Attachment general type.** An attachment created without a general
  type, or with an empty one, gets "test". That value is neither of the
  FILE/URL choices.
- **No visibility rule.** Nothing in these files restricts which notices a
  user sees by facility or publish date, so the model has no such rule.
- **Null versus absent.** Update tests each optional field for presence,
  and an explicit null counts as present. A null title, description or
  priority is written into a NOT NULL column, so the save fails. A null
  facility id finds no facility. Create likewise fails on an explicit null
  schedule flag. The model's `Field` type tells these three cases apart.

Identifiers (`Uuid`, facility ids) and times are integers. The clock and the
uuid generator are parameters: `now`, `today`, and the `uuid` handed to each
create.

## Model

| member | source | states |
|---|---|---|
| NoticeModels.PriorityChoicesAreLowMediumHigh | notice/models.py:13-23 | the priority codes are exactly LOW, MEDIUM and HIGH; the default MEDIUM is one of them; every code fits the 6-character column |
| NoticeModels.NewNotice | notice/models.py:19-37 | a new notice is active and has no end of validity; a given priority, schedule flag and publish date are stored, and without them it is MEDIUM, not scheduled and has no publish date; the facility is optional; created, updated and validity-from are all the save time |
| NoticeModels.NoticeText | notice/models.py:42-43 | the text form is the title, " (", the priority, ") - ", then the facility's text, or "None" when there is no facility |
| NoticeModels.GeneralTypeChoicesAreFileUrl | notice/models.py:59-64 | the general type codes are exactly FILE and URL, the default FILE is one of them, and each fits the 4-character column |
| NoticeModels.NewAttachment | notice/models.py:54-72 | a new attachment stores the given general type, and FILE when none is given; its date is the given one, else today; its module tag is "notice"; it copies every other input column |
| NoticeModels.AttachmentLabel | notice/models.py:77-78 | the label is never empty: the title if it is non-empty, else the filename if non-empty, else "Unnamed" |
| NoticeModels.AttachmentText | notice/models.py:77-78 | the attachment's text form is its label, " - ", then its notice's title |
| NoticeMutations.Gate | notice/gql_mutations.py:31-34 | the gate passes exactly when the user is authenticated (not anonymous, non-zero id) and holds the permission; it reports AuthenticationRequired first, before Unauthorized |
| NoticeMutations.PartialUpdateKeepsOtherFields | notice/gql_mutations.py:73-81 | a partial update changes exactly the fields the input gives a value, plus the automatic update time; a field left out keeps its value; identity, scheduling, validity and the active flag stay |
| NoticeMutations.Overwritten | notice/gql_mutations.py:289-296 | an attachment update overwrites every input column, so an absent optional one becomes None; id, uuid, notice and module stay |
| NoticeMutations.SoftDeleteActive | notice/gql_mutations.py:104-108 | after a bulk delete, a notice is active exactly when it was active before and was not listed; no notice is added or removed |
| NoticeMutations.SoftDeleteTouchesOnlyListed | notice/gql_mutations.py:104-108 | a bulk delete changes at most a notice's active flag and update time; unlisted notices are unchanged; listed ones end inactive |
| NoticeMutations.SoftDeleteErrors | notice/gql_mutations.py:103-114 | the reported errors are exactly one "Notice not found" per uuid that was not active at its turn, in input order, read off the original table (a repeated uuid fails on its later occurrence) |
| NoticeMutations.ExpectedNotFoundNamesListed | notice/gql_mutations.py:109-110 | every reported error is "Notice not found" with a listed uuid as detail, and there are never more errors than uuids |
| NoticeMutations.ExpectedNotFoundEmpty | notice/gql_mutations.py:112-114 | a bulk delete reports no error exactly when every listed uuid names an active notice and none is repeated |
| NoticeMutations.NoticeStore.CreateNotice | notice/gql_mutations.py:28-51 | the gate comes first; an unknown facility gives one "Failed to create notice" pair, and so does an explicit null schedule flag or a uuid already taken (both fail the save); on failure nothing is added; on success the new notice has the given title, description, priority and facility, is active, has the given schedule flag or else is not scheduled, and has the given publish date or none |
| NoticeMutations.NoticeStore.UpdateNotice | notice/gql_mutations.py:64-86 | the gate comes first; a uuid with no active notice gives "Notice not found" with the uuid; a null or unknown facility id, or a null title, description or priority, gives "Failed to update notice"; every failure leaves the table unchanged; it succeeds exactly when none of these happens, and then only that notice changes, partially updated |
| NoticeMutations.NoticeStore.DeleteNotices | notice/gql_mutations.py:95-116 | a failed gate gives one "Failed to delete notices" pair and changes nothing; otherwise the new table and the errors are those of `SoftDeleteAll`, and the result is None exactly when there are no errors |
| NoticeMutations.NoticeStore.ToggleNoticeStatus | notice/gql_mutations.py:127-142 | the gate uses the change permission; a missing uuid gives "Notice not found"; otherwise the active flag is set to the given value, whatever it was, and nothing else changes except the update time |
| NoticeMutations.NoticeStore.CreateNoticeAttachment | notice/gql_mutations.py:236-263 | the gate comes first; the parent notice must exist, active or not; a non-empty general type is stored and an absent or empty one becomes "test"; an absent date becomes today; the module tag is "notice"; on failure nothing is added |
| NoticeMutations.NoticeStore.UpdateNoticeAttachment | notice/gql_mutations.py:280-303 | the gate comes first; an unknown uuid fails, and so does an update without a date (the column is NOT NULL); on success exactly that attachment is overwritten field by field |
| NoticeMutations.NoticeStore.DeleteNoticeAttachment | notice/gql_mutations.py:312-331 | the gate comes first; an unknown id fails and changes nothing; otherwise the attachment is removed from the table for good |
| NoticeMutations.NoticeStore.DeleteNoticeCascade | notice/models.py:57-88 | deleting a notice that an audit row names fails with an integrity error and changes nothing; otherwise it removes the notice and exactly its attachments; the store stays valid either way |
| NoticeSchema.ImpactedUuids | notice/schema.py:48-51 | the mutation's batch of uuids when it is non-empty, else its single uuid, else nothing |
| NoticeSchema.Impacted | notice/schema.py:56 | the matched notices are the stored notices whose uuid the mutation names, active or not |
| NoticeSchema.OnNoticeMutation | notice/schema.py:47-65 | the hook always returns no errors and only appends; it appends nothing when no uuid is named; otherwise the new rows name exactly the matched notices, one row each, all carrying the mutation log id |
| NoticeSchema.AttachmentsOf | notice/schema.py:29-32 | the listing holds exactly the rows that pass the validity filter and, when a notice uuid is given, belong to that notice, each exactly as often as the table holds it (one row, one entry); the order is not promised, as the query sets none |
| NoticeSchema.ResolveNoticeAttachments | notice/schema.py:26-33 | the corrected listing: a user is refused with Unauthorized exactly when it does not hold notice.view_notice_attachment; otherwise it gets exactly the filtered rows, each as often as the table holds it |
| NoticeSchema.ResolveNoticeAttachmentsAsWritten | notice/schema.py:26-33 | as written: the listing succeeds exactly when the user holds every one-character permission spelled by the permission's name |
| NoticeSchema.AsWrittenNeedsLetterPerms | notice/schema.py:27-28 | as written, the listing admits only a user holding the one-letter permission "n" |
| NoticeSchema.AsWrittenRefusesPermissionHolder | notice/schema.py:27-28 | a user holding exactly notice.view_notice_attachment is refused as written and admitted by the corrected listing |
| NoticeApps.Overlay | notice/apps.py:47-50 | after loading, the class has the same attributes as before; a declared attribute the configuration names takes its value; the others keep theirs |
| NoticeApps.OverlayIdempotent | notice/apps.py:47-50 | loading the same configuration twice gives the same attributes as loading it once |
| NoticeApps.OverlayIgnoresUnknownKeys | notice/apps.py:49 | keys the class lacks have no effect: dropping them from the configuration changes nothing |
| NoticeApps.OverlayOfDeclaredKeys | notice/apps.py:48-50 | a configuration whose keys are all declared overwrites exactly those attributes (the result is the old attributes updated by the configuration) |
| NoticeApps.DefaultKeysAreDeclared | notice/apps.py:5-45 | every key of the default configuration is a declared setting |
| NoticeApps.SettingsHaveDefaults | notice/apps.py:5-45 | every declared setting has a default |
| NoticeApps.InitialAttributesAreNameAndSettings | notice/apps.py:26-45 | before loading, the class has its name and the seventeen declared settings, and nothing else |
| NoticeApps.LoadingDefaultsSetsEverySetting | notice/apps.py:5-50 | loading the defaults sets all seventeen settings to their defaults and leaves the name "notice" |
| NoticeApps.DefaultPriorityIsAnOption | notice/apps.py:16-17 | the default priority "Low" is one of the default priority options |
| NoticeApps.NoticeConfig.constructor | notice/apps.py:26-45 | the class starts with its name and the declared initial value of every setting |
| NoticeApps.NoticeConfig.LoadConfig | notice/apps.py:47-50 | the configuration is copied onto the attributes the class has, entry by entry; the end result is `Overlay` of the old attributes |
| NoticeApps.NoticeConfig.Ready | notice/apps.py:52-55 | start-up loads the stored configuration, or the defaults when none is stored |

## Left out

- Email and SMS mutations (notice/gql_mutations.py:144-216) are not modelled. They are mail transport, HTTP calls to an SMS gateway and environment variables, and they are not part of the core.
- notice/services.py, notice/middleware.py, notice/signals.py, notice/gql_queries.py and notice/utils/generate_fixture.py are not part of this model. They are I/O, request logging, foreign service dispatch, GraphQL type wiring and random fixtures.
- Exception texts are abstract. A catch-all pair carries the cause (`Cause`), not the text of the exception. "Notice not found" pairs carry the uuid itself.
- Permissions are set membership. The user's permission set is given directly. How the framework resolves group permissions is not modelled.
- The validity filter applied when listing attachments is a parameter (`inForce`), because it is a helper from outside the module.
- The stored-configuration lookup is a parameter of `NoticeApps.NoticeConfig.Ready`, because it is a database read outside the module.
- NoticeApps.NoticeConfig: the attribute table holds only `name` and the seventeen declared settings. Attributes the class inherits from the framework's application-config base class also pass the attribute check in the source, so a configuration key naming one of them would overwrite it there. The model does not capture that.
- NoticeApps.NoticeConfig.LoadConfig: the order in which a configuration is walked is not modelled. The keys are distinct, so the order has no effect on the result.
- NoticeSchema.OnNoticeMutation: when the hook runs relative to the handler is not modelled. The code that sends the validation signal is not part of this model.
- NoticeSchema.OnNoticeMutation: audit rows are appended in the order the notices' uuids first occur in the input, where the database returns them in an order of its own. The set of rows is the same either way. The audit row's own uuid and version columns are not modelled.
- Uuid text parsing and malformed uuids are not modelled: uuids arrive already parsed.
- NoticeMutations.NoticeStore.DeleteNoticeAttachment: the attachment id arrives as text in the source and is an integer here. A non-numeric id makes the lookup raise, which the handler turns into the same failure pair as an unknown id.
- Column widths: title 255, priority 6 and general type 4 are `varchar` columns, and databases such as PostgreSQL and SQL Server reject a longer value on save, which the handler's catch-all turns into a failure pair. The model leaves that failure path out and keeps the widths as constants only; for example, a create with priority "CRITICAL" succeeds in the model.
- NoticeMutations.NoticeStore.CreateNotice: a title or priority longer than its column is stored, where such databases make the save fail.
- NoticeMutations.NoticeStore.UpdateNotice: a title or priority longer than its column is stored, where such databases make the save fail.
- NoticeMutations.NoticeStore.CreateNoticeAttachment: a general type longer than four characters is stored, where such databases make the save fail.
- NoticeMutations.NoticeStore.UpdateNoticeAttachment: a general type longer than four characters is stored, where such databases make the save fail.
- NoticeMutations.NoticeStore.DeleteNotices: a null entry in the uuid list is not modelled; uuids arrive as values. The source would look it up, find no notice, and report it as not found.
- The debugger breakpoint at notice/gql_mutations.py:323 is not modelled.
- Timestamps: `updated_at` is refreshed on every save. The model sets it to the `now` parameter and otherwise does not model time.
- Create with a uuid already taken gives IntegrityError. The uuid is a parameter standing for the generator's draw, and the model treats a collision as a unique-constraint failure on save.
- NoticeMutations.NoticeStore.UpdateNoticeAttachment: an update without a date fails and changes nothing. The date column has no null flag at notice/models.py:67, so the save cannot store the missing date. The model follows that declaration.

## Findings

| source | as written | input that shows it | evidently intended | confidence | as-written member | corrected member |
|---|---|---|---|---|---|---|
| notice/schema.py:27 | `has_perms` receives the bare string "notice.view_notice_attachment" instead of a list, so the framework treats each character as a permission (newer framework versions reject the string outright) | a user holding exactly `notice.view_notice_attachment` asks for the attachment list and is refused | `has_perms(["notice.view_notice_attachment"])`, as every handler in notice/gql_mutations.py writes it: admit exactly the holders of that permission | medium, not executed | NoticeSchema.ResolveNoticeAttachmentsAsWritten, NoticeSchema.AsWrittenRefusesPermissionHolder | NoticeSchema.ResolveNoticeAttachments |

=== FILE: apps.dfy ===
/**
 * The notice module's settings: the defaults it ships with, and the
 * start-up step that copies a loaded configuration onto the attributes the
 * configuration class has (its name and the seventeen declared settings),
 * ignoring every other key.
 */
module NoticeApps {

  const ModuleName: string := "notice"

  /** A configuration value: a list of strings, a number, a text, a flag, or none. */
  datatype CfgValue = Strings(items: seq<string>) | Number(n: int) | Text(s: string) | Flag(b: bool) | Null

  /** The settings the configuration class declares. */
  const Settings: set<string> := {
    "gql_query_notices_perms", "gql_query_notice_admins_perms",
    "gql_mutation_create_notices_perms", "gql_mutation_update_notices_perms",
    "gql_mutation_delete_notices_perms", "gql_mutation_toggle_notice_status_perms",
    "gql_mutation_send_notice_email_perms", "gql_mutation_send_notice_sms_perms",
    "notice_max_length_title", "notice_max_length_description",
    "notice_priority_options", "notice_default_priority", "notice_max_restore",
    "notice_email_enabled", "notice_sms_enabled",
    "notice_attachments_root_path", "allowed_domains_attachments"
  }

  /** The configuration used when none is stored. */
  const DefaultCfg: map<string, CfgValue> := map[
    "gql_query_notices_perms" := Strings(["112001"]),
    "gql_query_notice_admins_perms" := Strings([]),
    "gql_mutation_create_notices_perms" := Strings(["112002"]),
    "gql_mutation_update_notices_perms" := Strings(["112003"]),
    "gql_mutation_delete_notices_perms" := Strings(["112004"]),
    "gql_mutation_toggle_notice_status_perms" := Strings(["112005"]),
    "gql_mutation_send_notice_email_perms" := Strings(["112006"]),
    "gql_mutation_send_notice_sms_perms" := Strings(["112007"]),
    "notice_max_length_title" := Number(100),
    "notice_max_length_description" := Number(1000),
    "notice_priority_options" := Strings(["Low", "Medium", "High"]),
    "notice_default_priority" := Text("Low"),
    "notice_max_restore" := Null,
    "notice_email_enabled" := Flag(true),
    "notice_sms_enabled" := Flag(true),
    "notice_attachments_root_path" := Null,
    "allowed_domains_attachments" := Strings([])
  ]

  /** The class's attributes before any configuration is loaded: its name and the declared settings' initial values. */
  const InitialAttributes: map<string, CfgValue> := map[
    "name" := Text(ModuleName),
    "gql_query_notices_perms" := Strings([]),
    "gql_query_notice_admins_perms" := Strings([]),
    "gql_mutation_create_notices_perms" := Strings([]),
    "gql_mutation_update_notices_perms" := Strings([]),
    "gql_mutation_delete_notices_perms" := Strings([]),
    "gql_mutation_toggle_notice_status_perms" := Strings([]),
    "gql_mutation_send_notice_email_perms" := Strings([]),
    "gql_mutation_send_notice_sms_perms" := Strings([]),
    "notice_max_length_title" := Null,
    "notice_max_length_description" := Null,
    "notice_priority_options" := Strings([]),
    "notice_default_priority" := Null,
    "notice_max_restore" := Null,
    "notice_email_enabled" := Null,
    "notice_sms_enabled" := Null,
    "notice_attachments_root_path" := Null,
    "allowed_domains_attachments" := Null
  ]

  /**
   * The attributes after loading `cfg`: an attribute the class has takes the
   * configuration's value when the configuration names it and keeps its own
   * otherwise; keys the class does not have are dropped.
   */
  function Overlay(attrs: map<string, CfgValue>, cfg: map<string, CfgValue>): (r: map<string, CfgValue>)
    ensures r.Keys == attrs.Keys
    ensures forall k | k in attrs && k in cfg :: r[k] == cfg[k]
    ensures forall k | k in attrs && k !in cfg :: r[k] == attrs[k]
  {
    map k | k in attrs :: if k in cfg then cfg[k] else attrs[k]
  }

  /** Loading the same configuration a second time changes nothing. */
  lemma OverlayIdempotent(attrs: map<string, CfgValue>, cfg: map<string, CfgValue>)
    ensures Overlay(Overlay(attrs, cfg), cfg) == Overlay(attrs, cfg)
  {
  }

  /** Loading ignores keys the class lacks: dropping them from the configuration gives the same attributes. */
  lemma OverlayIgnoresUnknownKeys(attrs: map<string, CfgValue>, cfg: map<string, CfgValue>)
    ensures Overlay(attrs, cfg) == Overlay(attrs, map k | k in cfg && k in attrs :: cfg[k])
  {
  }

  /** Every key of the defaults is a declared setting, so none of them is dropped on loading. */
  lemma DefaultKeysAreDeclared()
    ensures DefaultCfg.Keys <= Settings
  {
  }

  /** Every declared setting has a default. */
  lemma SettingsHaveDefaults()
    ensures Settings <= DefaultCfg.Keys
  {
  }

  /** Before loading, the class has its name and every declared setting, and nothing else. */
  lemma InitialAttributesAreNameAndSettings()
    ensures InitialAttributes.Keys == Settings + {"name"}
    ensures "name" !in Settings
  {
    assert Settings <= InitialAttributes.Keys;
  }

  /** A configuration whose keys the class all has overwrites exactly those attributes. */
  lemma OverlayOfDeclaredKeys(attrs: map<string, CfgValue>, cfg: map<string, CfgValue>)
    requires cfg.Keys <= attrs.Keys
    ensures Overlay(attrs, cfg) == attrs + cfg
  {
    var r := Overlay(attrs, cfg);
    assert r.Keys == (attrs + cfg).Keys;
    forall k | k in r ensures r[k] == (attrs + cfg)[k] {
      if k in cfg {
        assert r[k] == cfg[k];
      }
    }
  }

  /** Loading the defaults sets every declared setting to its default and leaves the name alone. */
  lemma LoadingDefaultsSetsEverySetting()
    ensures Overlay(InitialAttributes, DefaultCfg) == InitialAttributes + DefaultCfg
    ensures Overlay(InitialAttributes, DefaultCfg).Keys == Settings + {"name"}
    ensures Overlay(InitialAttributes, DefaultCfg)["name"] == Text(ModuleName)
  {
    DefaultKeysAreDeclared();
    SettingsHaveDefaults();
    InitialAttributesAreNameAndSettings();
    OverlayOfDeclaredKeys(InitialAttributes, DefaultCfg);
    assert "name" !in DefaultCfg;
  }

  /** The default priority is one of the default priority options. */
  lemma DefaultPriorityIsAnOption()
    ensures DefaultCfg["notice_default_priority"].Text?
    ensures DefaultCfg["notice_priority_options"].Strings?
    ensures DefaultCfg["notice_default_priority"].s in DefaultCfg["notice_priority_options"].items
  {
    assert DefaultCfg["notice_priority_options"].items[0] == "Low";
  }

  /**
   * The configuration class. Its attributes live on the class itself, so
   * one object stands for the class and `attrs` for its attribute table.
   */
  class NoticeConfig {
    var attrs: map<string, CfgValue>

    constructor ()
      ensures attrs == InitialAttributes
    {
      attrs := InitialAttributes;
    }

    /** Copy every configuration entry whose key the class has onto the class. */
    method LoadConfig(cfg: map<string, CfgValue>)
      modifies this
      ensures attrs == Overlay(old(attrs), cfg)
    {
      var remaining := cfg.Keys;
      while remaining != {}
        invariant remaining <= cfg.Keys
        invariant attrs.Keys == old(attrs).Keys
        invariant forall k | k in attrs :: attrs[k] == if k in cfg && k !in remaining then cfg[k] else old(attrs)[k]
        decreases remaining
      {
        var field :| field in remaining;
        if field in attrs {
          attrs := attrs[field := cfg[field]];
        }
        remaining := remaining - {field};
      }
    }

    /** The start-up step: load the stored configuration, or the defaults when none is stored. */
    method Ready(stored: map<string, CfgValue>, hasStored: bool)
      modifies this
      ensures attrs == Overlay(old(attrs), if hasStored then stored else DefaultCfg)
    {
      var cfg := if hasStored then stored else DefaultCfg;
      LoadConfig(cfg);
    }
  }
}

=== FILE: models.dfy ===
/**
 * The record shapes of the notice module: a Notice, a NoticeAttachment that
 * belongs to one notice, and the NoticeMutation audit link. Field choices,
 * defaults and nullability follow the Django model declarations; a nullable
 * column is an `Option`.
 */
module NoticeModels {
  import opened Wrappers

  /** A durable external identifier (a UUID); only equality matters. */
  type Uuid = int
  /** The numeric key of a health facility. */
  type FacilityId = int
  /** An instant, as read from the clock. */
  type DateTime = int
  /** A calendar day. */
  type Date = int

  // ---------------------------------------------------------------- Notice

  /** The priority choices, as (stored code, label) pairs. */
  const PriorityChoices: seq<(string, string)> :=
    [("LOW", "Low"), ("MEDIUM", "Medium"), ("HIGH", "High")]
  const DefaultPriority: string := "MEDIUM"
  /** The width of the priority column. */
  const PriorityMaxLength: nat := 6

  predicate IsPriorityCode(code: string) {
    exists i :: 0 <= i < |PriorityChoices| && PriorityChoices[i].0 == code
  }

  /**
   * The priority column holds a free string: nothing on the save path checks
   * it against the choices, so `priority` is a `string` and `IsPriorityCode`
   * states what the choices allow.
   */
  datatype Notice = Notice(
    uuid: Uuid,
    id: int,
    title: string,
    description: string,
    priority: string,
    healthFacility: Option<FacilityId>,
    createdAt: DateTime,
    updatedAt: DateTime,
    schedulePublish: bool,
    publishStartDate: Option<DateTime>,
    validityFrom: DateTime,
    validityTo: Option<DateTime>,
    isActive: bool)

  /** The priority codes are exactly LOW, MEDIUM and HIGH, each fits the column, and the default is one of them. */
  lemma PriorityChoicesAreLowMediumHigh(code: string)
    ensures IsPriorityCode(code) <==> code in {"LOW", "MEDIUM", "HIGH"}
    ensures IsPriorityCode(DefaultPriority)
    ensures forall i :: 0 <= i < |PriorityChoices| ==> |PriorityChoices[i].0| <= PriorityMaxLength
  {
    if code == "LOW" {
      assert PriorityChoices[0].0 == code;
    } else if code == "MEDIUM" {
      assert PriorityChoices[1].0 == code;
    } else if code == "HIGH" {
      assert PriorityChoices[2].0 == code;
    }
    assert PriorityChoices[1].0 == DefaultPriority;
  }

  /**
   * A notice built from the given fields, every omitted field taking its
   * declared default: priority MEDIUM, not scheduled, no publish date, no
   * end of validity, active; the three automatic timestamps are `now`.
   */
  function NewNotice(
    id: int, uuid: Uuid, title: string, description: string,
    priority: Option<string>, healthFacility: Option<FacilityId>,
    schedulePublish: Option<bool>, publishStartDate: Option<DateTime>,
    now: DateTime): (n: Notice)
    ensures n.uuid == uuid && n.id == id && n.title == title && n.description == description
    ensures n.isActive && n.validityTo == None
    ensures priority == None ==> n.priority == DefaultPriority && IsPriorityCode(n.priority)
    ensures priority.Some? ==> n.priority == priority.value
    ensures schedulePublish == None ==> !n.schedulePublish
    ensures schedulePublish.Some? ==> n.schedulePublish == schedulePublish.value
    ensures n.publishStartDate == publishStartDate
    ensures n.healthFacility == healthFacility
    ensures n.createdAt == now && n.updatedAt == now && n.validityFrom == now
  {
    PriorityChoicesAreLowMediumHigh(DefaultPriority);
    Notice(
      uuid, id, title, description,
      if priority.Some? then priority.value else DefaultPriority,
      healthFacility, now, now,
      if schedulePublish.Some? then schedulePublish.value else false,
      publishStartDate, now, None, true)
  }

  /**
   * The text form of a notice: title, the priority in parentheses, then the
   * facility's own text form, or "None" for a notice without a facility.
   */
  function NoticeText(n: Notice, facilityText: FacilityId -> string): (r: string)
    ensures |r| >= |n.title| + |n.priority| + 6
    ensures r[..|n.title|] == n.title
    ensures r[|n.title|..|n.title| + 2] == " ("
    ensures r[|n.title| + 2..|n.title| + 2 + |n.priority|] == n.priority
    ensures r[|n.title| + 2 + |n.priority|..|n.title| + 6 + |n.priority|] == ") - "
    ensures n.healthFacility == None ==> r[|n.title| + 6 + |n.priority|..] == "None"
    ensures n.healthFacility.Some? ==> r[|n.title| + 6 + |n.priority|..] == facilityText(n.healthFacility.value)
  {
    var facility := if n.healthFacility.Some? then facilityText(n.healthFacility.value) else "None";
    n.title + " (" + n.priority + ") - " + facility
  }

  // ------------------------------------------------------ NoticeAttachment

  /** The general type choices, as (stored code, label) pairs. */
  const GeneralTypeChoices: seq<(string, string)> := [("FILE", "File"), ("URL", "URL")]
  const DefaultGeneralType: string := "FILE"
  /** The width of the general type column. */
  const GeneralTypeMaxLength: nat := 4
  const DefaultModuleTag: string := "notice"

  predicate IsGeneralTypeCode(code: string) {
    exists i :: 0 <= i < |GeneralTypeChoices| && GeneralTypeChoices[i].0 == code
  }

  /** The general type codes are exactly FILE and URL, and the default is FILE. */
  lemma GeneralTypeChoicesAreFileUrl(code: string)
    ensures IsGeneralTypeCode(code) <==> code in {"FILE", "URL"}
    ensures IsGeneralTypeCode(DefaultGeneralType)
    ensures forall i :: 0 <= i < |GeneralTypeChoices| ==> |GeneralTypeChoices[i].0| <= GeneralTypeMaxLength
  {
    if code == "FILE" {
      assert GeneralTypeChoices[0].0 == code;
    } else if code == "URL" {
      assert GeneralTypeChoices[1].0 == code;
    }
    assert GeneralTypeChoices[0].0 == DefaultGeneralType;
  }

  /**
   * An attachment belongs to exactly one notice, named by `noticeUuid`.
   * `date` is the one optional input column that is NOT NULL in storage.
   * `customType` is the column called `type`; `moduleTag` the one called `module`.
   */
  datatype NoticeAttachment = NoticeAttachment(
    id: int,
    uuid: Uuid,
    noticeUuid: Uuid,
    generalType: string,
    customType: Option<string>,
    title: Option<string>,
    date: Date,
    filename: Option<string>,
    mime: Option<string>,
    moduleTag: Option<string>,
    url: Option<string>,
    document: Option<string>)

  /** The free-form columns an attachment input may carry; absent ones are `None`. */
  datatype AttachmentFields = AttachmentFields(
    customType: Option<string>,
    title: Option<string>,
    date: Option<Date>,
    filename: Option<string>,
    mime: Option<string>,
    url: Option<string>,
    document: Option<string>)

  /**
   * An attachment built from the given fields under the declared defaults:
   * general type FILE and the date `today` when omitted, module "notice".
   */
  function NewAttachment(
    id: int, uuid: Uuid, noticeUuid: Uuid, generalType: Option<string>,
    fields: AttachmentFields, today: Date): (a: NoticeAttachment)
    ensures a.id == id && a.uuid == uuid && a.noticeUuid == noticeUuid
    ensures generalType == None ==> a.generalType == DefaultGeneralType && IsGeneralTypeCode(a.generalType)
    ensures generalType.Some? ==> a.generalType == generalType.value
    ensures a.date == (if fields.date.Some? then fields.date.value else today)
    ensures a.moduleTag == Some(DefaultModuleTag)
    ensures a.customType == fields.customType && a.title == fields.title && a.filename == fields.filename
    ensures a.mime == fields.mime && a.url == fields.url && a.document == fields.document
  {
    GeneralTypeChoicesAreFileUrl(DefaultGeneralType);
    NoticeAttachment(
      id, uuid, noticeUuid,
      if generalType.Some? then generalType.value else DefaultGeneralType,
      fields.customType, fields.title,
      if fields.date.Some? then fields.date.value else today,
      fields.filename, fields.mime, Some(DefaultModuleTag), fields.url, fields.document)
  }

  /** Python truthiness of an optional string: present and not empty. */
  predicate Truthy(s: Option<string>) {
    s.Some? && s.value != ""
  }

  /**
   * The name an attachment is shown under: its title, else its filename, else
   * "Unnamed"; an empty title or filename counts as missing.
   */
  function AttachmentLabel(a: NoticeAttachment): (shown: string)
    ensures shown != ""
    ensures Truthy(a.title) ==> shown == a.title.value
    ensures !Truthy(a.title) && Truthy(a.filename) ==> shown == a.filename.value
    ensures !Truthy(a.title) && !Truthy(a.filename) ==> shown == "Unnamed"
  {
    if Truthy(a.title) then a.title.value
    else if Truthy(a.filename) then a.filename.value
    else "Unnamed"
  }

  /** The text form of an attachment: its label, " - ", and its notice's title. */
  function AttachmentText(a: NoticeAttachment, noticeTitle: string): (r: string)
    ensures |r| == |AttachmentLabel(a)| + 3 + |noticeTitle|
    ensures r[..|AttachmentLabel(a)|] == AttachmentLabel(a) != ""
    ensures r[|AttachmentLabel(a)|..|AttachmentLabel(a)| + 3] == " - "
    ensures r[|AttachmentLabel(a)| + 3..] == noticeTitle
  {
    AttachmentLabel(a) + " - " + noticeTitle
  }

  // -------------------------------------------------------- NoticeMutation

  /** An audit row linking a notice to an external mutation-log record. */
  datatype NoticeMutationRow = NoticeMutationRow(noticeUuid: Uuid, mutationId: int)
}

=== FILE: mutations.dfy ===
/**
 * The mutation handlers of the notice module, over an in-memory stand-in for
 * the database: notices by uuid, attachments by numeric id, the known health
 * facility ids, and the audit table. Every handler first checks that the user
 * is authenticated, then that it holds the operation's permission; any
 * failure is returned as a list of (message, detail) pairs, `None` meaning
 * success.
 */
module NoticeMutations {
  import opened Wrappers
  import opened NoticeModels

  // ------------------------------------------------------ users and errors

  /** The requesting user: the anonymous marker, the numeric id, the granted permissions. */
  datatype User = User(anonymous: bool, id: Option<int>, perms: set<string>)

  /** Not the anonymous user and carrying a non-zero id. */
  predicate Authenticated(user: User) {
    !user.anonymous && user.id.Some? && user.id.value != 0
  }

  /** The permission check: the anonymous user holds no permission. */
  predicate HasPerm(user: User, perm: string) {
    !user.anonymous && perm in user.perms
  }

  /** Every permission in the list is held (the empty list always passes). */
  predicate HasPerms(user: User, perms: seq<string>) {
    forall i :: 0 <= i < |perms| ==> HasPerm(user, perms[i])
  }

  const AddNoticePerm: string := "notice.add_notice"
  const ChangeNoticePerm: string := "notice.change_notice"
  const DeleteNoticePerm: string := "notice.delete_notice"
  const AddAttachmentPerm: string := "notice.add_notice_attachment"
  const ChangeAttachmentPerm: string := "notice.change_notice_attachment"
  const DeleteAttachmentPerm: string := "notice.delete_notice_attachment"

  /** Why a handler failed; the text of each exception is left abstract. */
  datatype Cause =
    | AuthenticationRequired
    | Unauthorized
    | FacilityDoesNotExist
    | NoticeDoesNotExist
    | AttachmentDoesNotExist
    | IntegrityError

  /** The detail of an error pair: a uuid's text, or an exception's text. */
  datatype Detail = UuidText(uuid: Uuid) | ExceptionText(cause: Cause)

  datatype ErrorPair = ErrorPair(message: string, detail: Detail)

  /** What a handler returns: `None` on success, else the error pairs. */
  type Errors = Option<seq<ErrorPair>>

  const CreateNoticeFailed: string := "Failed to create notice"
  const UpdateNoticeFailed: string := "Failed to update notice"
  const DeleteNoticesFailed: string := "Failed to delete notices"
  const ToggleNoticeFailed: string := "Failed to toggle notice status"
  const CreateAttachmentFailed: string := "Failed to create notice attachment"
  const UpdateAttachmentFailed: string := "Failed to update notice attachment"
  const DeleteAttachmentFailed: string := "Failed to delete notice attachment"
  const NoticeNotFound: string := "Notice not found"
  /** The general type a created attachment gets when none (or an empty one) is given. */
  const FallbackGeneralType: string := "test"

  /**
   * The gate in front of every handler: authentication is checked before the
   * permission, so an unauthenticated user is told so whatever it holds.
   */
  function Gate(user: User, perm: string): (cause: Option<Cause>)
    ensures cause == None <==> Authenticated(user) && perm in user.perms
    ensures !Authenticated(user) ==> cause == Some(AuthenticationRequired)
    ensures Authenticated(user) && perm !in user.perms ==> cause == Some(Unauthorized)
  {
    assert HasPerms(user, [perm]) <==> HasPerm(user, [perm][0]);
    if !Authenticated(user) then Some(AuthenticationRequired)
    else if !HasPerms(user, [perm]) then Some(Unauthorized)
    else None
  }

  /** The single error pair a handler's catch-all produces. */
  function Failed(message: string, cause: Cause): Errors {
    Some([ErrorPair(message, ExceptionText(cause))])
  }

  function NotFound(uuid: Uuid): ErrorPair {
    ErrorPair(NoticeNotFound, UuidText(uuid))
  }

  predicate IsActive(notices: map<Uuid, Notice>, uuid: Uuid) {
    uuid in notices && notices[uuid].isActive
  }

  // ------------------------------------------------------------- inputs

  /**
   * An input field whose presence a handler tests: left out of the request,
   * sent as an explicit null, or given a value. An explicit null counts as
   * present.
   */
  datatype Field<T> = Absent | Null | Given(value: T)

  /**
   * A create request. `publishStartDate` is read with a plain lookup, for
   * which a missing key and a null are alike, so it stays an `Option`.
   */
  datatype CreateNoticeInput = CreateNoticeInput(
    title: string, description: string, priority: string, healthFacilityId: FacilityId,
    schedulePublish: Field<bool>, publishStartDate: Option<DateTime>)

  /** An update names a notice; each other field is written only when present, null included. */
  datatype UpdateNoticeInput = UpdateNoticeInput(
    uuid: Uuid, title: Field<string>, description: Field<string>,
    priority: Field<string>, healthFacilityId: Field<FacilityId>)

  datatype CreateAttachmentInput = CreateAttachmentInput(
    noticeUuid: Uuid, generalType: Option<string>, fields: AttachmentFields)

  datatype UpdateAttachmentInput = UpdateAttachmentInput(
    uuid: Uuid, generalType: string, fields: AttachmentFields)

  // ------------------------------------------------ update specification

  /** The value of a field after a partial overwrite with a non-null value. */
  function Overwrite<T>(current: T, given: Field<T>): T {
    if given.Given? then given.value else current
  }

  /**
   * The facility lookup of an update succeeds: no facility is named, or a
   * known one is. A null id finds no facility.
   */
  predicate FacilityResolves(given: Field<FacilityId>, facilities: set<FacilityId>) {
    given.Absent? || (given.Given? && given.value in facilities)
  }

  /** No NOT NULL column of the notice is set to null by the update. */
  predicate NoNullColumn(input: UpdateNoticeInput) {
    !input.title.Null? && !input.description.Null? && !input.priority.Null?
  }

  /**
   * `after` is `before` with exactly the fields present in `input`
   * overwritten and the automatic update time refreshed.
   */
  predicate PartiallyUpdated(before: Notice, after: Notice, input: UpdateNoticeInput, now: DateTime) {
    after == before.(
      title := Overwrite(before.title, input.title),
      description := Overwrite(before.description, input.description),
      priority := Overwrite(before.priority, input.priority),
      healthFacility := if input.healthFacilityId.Given? then Some(input.healthFacilityId.value) else before.healthFacility,
      updatedAt := now)
  }

  /** A partial update never touches identity, scheduling, validity or the active flag, nor any field the input leaves out. */
  lemma PartialUpdateKeepsOtherFields(before: Notice, after: Notice, input: UpdateNoticeInput, now: DateTime)
    requires PartiallyUpdated(before, after, input, now)
    ensures after.uuid == before.uuid && after.id == before.id && after.isActive == before.isActive
    ensures after.schedulePublish == before.schedulePublish && after.publishStartDate == before.publishStartDate
    ensures after.createdAt == before.createdAt && after.validityFrom == before.validityFrom
    ensures after.validityTo == before.validityTo
    ensures input.title.Absent? ==> after.title == before.title
    ensures input.description.Absent? ==> after.description == before.description
    ensures input.priority.Absent? ==> after.priority == before.priority
    ensures input.healthFacilityId.Absent? ==> after.healthFacility == before.healthFacility
    ensures input.title.Given? ==> after.title == input.title.value
    ensures input.description.Given? ==> after.description == input.description.value
    ensures input.priority.Given? ==> after.priority == input.priority.value
    ensures input.healthFacilityId.Given? ==> after.healthFacility == Some(input.healthFacilityId.value)
  {
  }

  /**
   * The attachment after an update: every input column is overwritten, an
   * absent optional one becoming `None`; id, uuid, notice and module stay.
   */
  function Overwritten(a: NoticeAttachment, input: UpdateAttachmentInput): (b: NoticeAttachment)
    requires input.fields.date.Some?
    ensures b.id == a.id && b.uuid == a.uuid && b.noticeUuid == a.noticeUuid && b.moduleTag == a.moduleTag
    ensures b.generalType == input.generalType && Some(b.date) == input.fields.date
    ensures b.customType == input.fields.customType && b.title == input.fields.title
    ensures b.filename == input.fields.filename && b.mime == input.fields.mime
    ensures b.url == input.fields.url && b.document == input.fields.document
  {
    a.(generalType := input.generalType, customType := input.fields.customType,
       title := input.fields.title, date := input.fields.date.value,
       filename := input.fields.filename, mime := input.fields.mime,
       url := input.fields.url, document := input.fields.document)
  }

  // ------------------------------------------- bulk soft-delete specification

  datatype DeleteOutcome = DeleteOutcome(notices: map<Uuid, Notice>, errors: seq<ErrorPair>)

  /**
   * The bulk soft-delete, one uuid at a time in input order: an active notice
   * is made inactive, any other uuid adds one "Notice not found" pair.
   */
  function SoftDeleteAll(notices: map<Uuid, Notice>, uuids: seq<Uuid>, now: DateTime): DeleteOutcome
    decreases |uuids|
  {
    if uuids == [] then DeleteOutcome(notices, [])
    else
      var before := SoftDeleteAll(notices, uuids[..|uuids| - 1], now);
      var uuid := uuids[|uuids| - 1];
      if IsActive(before.notices, uuid) then
        DeleteOutcome(before.notices[uuid := before.notices[uuid].(isActive := false, updatedAt := now)], before.errors)
      else
        DeleteOutcome(before.notices, before.errors + [NotFound(uuid)])
  }

  /**
   * The errors a bulk delete should report, read off the original table: a
   * uuid fails when it does not name an active notice or when it already
   * occurred earlier in the batch.
   */
  function ExpectedNotFound(notices: map<Uuid, Notice>, uuids: seq<Uuid>): seq<ErrorPair>
    decreases |uuids|
  {
    if uuids == [] then []
    else
      var earlier := uuids[..|uuids| - 1];
      var uuid := uuids[|uuids| - 1];
      ExpectedNotFound(notices, earlier)
        + (if IsActive(notices, uuid) && uuid !in earlier then [] else [NotFound(uuid)])
  }

  predicate Distinct(uuids: seq<Uuid>) {
    forall i, j :: 0 <= i < j < |uuids| ==> uuids[i] != uuids[j]
  }

  /** After a bulk delete a notice is active exactly when it was active before and was not listed. */
  lemma {:induction false} SoftDeleteActive(notices: map<Uuid, Notice>, uuids: seq<Uuid>, now: DateTime, uuid: Uuid)
    ensures SoftDeleteAll(notices, uuids, now).notices.Keys == notices.Keys
    ensures IsActive(SoftDeleteAll(notices, uuids, now).notices, uuid) <==> IsActive(notices, uuid) && uuid !in uuids
  {
    if uuids != [] {
      var earlier := uuids[..|uuids| - 1];
      SoftDeleteActive(notices, earlier, now, uuid);
      assert uuids == earlier + [uuids[|uuids| - 1]];
    }
  }

  /** A bulk delete changes at most the active flag and the update time of any notice, and leaves unlisted notices as they were. */
  lemma {:induction false} SoftDeleteTouchesOnlyListed(notices: map<Uuid, Notice>, uuids: seq<Uuid>, now: DateTime, uuid: Uuid)
    requires uuid in notices
    ensures uuid in SoftDeleteAll(notices, uuids, now).notices
    ensures var after := SoftDeleteAll(notices, uuids, now).notices[uuid];
      after.(isActive := notices[uuid].isActive, updatedAt := notices[uuid].updatedAt) == notices[uuid]
    ensures uuid !in uuids ==> SoftDeleteAll(notices, uuids, now).notices[uuid] == notices[uuid]
    ensures uuid in uuids ==> !SoftDeleteAll(notices, uuids, now).notices[uuid].isActive
  {
    if uuids != [] {
      var earlier := uuids[..|uuids| - 1];
      SoftDeleteTouchesOnlyListed(notices, earlier, now, uuid);
      SoftDeleteActive(notices, earlier, now, uuid);
      assert uuids == earlier + [uuids[|uuids| - 1]];
    }
  }

  /** The errors of a bulk delete are exactly those read off the original table, in input order. */
  lemma {:induction false} SoftDeleteErrors(notices: map<Uuid, Notice>, uuids: seq<Uuid>, now: DateTime)
    ensures SoftDeleteAll(notices, uuids, now).errors == ExpectedNotFound(notices, uuids)
  {
    if uuids != [] {
      var earlier := uuids[..|uuids| - 1];
      SoftDeleteErrors(notices, earlier, now);
      SoftDeleteActive(notices, earlier, now, uuids[|uuids| - 1]);
    }
  }

  /** Each expected error names a listed uuid, so there are never more errors than uuids. */
  lemma {:induction false} ExpectedNotFoundNamesListed(notices: map<Uuid, Notice>, uuids: seq<Uuid>)
    ensures |ExpectedNotFound(notices, uuids)| <= |uuids|
    ensures forall e :: e in ExpectedNotFound(notices, uuids) ==>
      e.message == NoticeNotFound && e.detail.UuidText? && e.detail.uuid in uuids
  {
    if uuids != [] {
      var earlier := uuids[..|uuids| - 1];
      ExpectedNotFoundNamesListed(notices, earlier);
      assert uuids == earlier + [uuids[|uuids| - 1]];
    }
  }

  /** Appending one uuid keeps a batch free of repeats exactly when the uuid is new. */
  lemma DistinctSnoc(uuids: seq<Uuid>, uuid: Uuid)
    ensures Distinct(uuids + [uuid]) <==> Distinct(uuids) && uuid !in uuids
  {
    var all := uuids + [uuid];
    if Distinct(all) {
      forall i, j | 0 <= i < j < |uuids| ensures uuids[i] != uuids[j] {
        assert all[i] == uuids[i] && all[j] == uuids[j];
      }
      forall k | 0 <= k < |uuids| ensures uuids[k] != uuid {
        assert all[k] == uuids[k] && all[|uuids|] == uuid;
      }
    }
  }

  /** A bulk delete reports no error exactly when every uuid names an active notice and none is repeated. */
  lemma {:induction false} ExpectedNotFoundEmpty(notices: map<Uuid, Notice>, uuids: seq<Uuid>)
    ensures ExpectedNotFound(notices, uuids) == [] <==>
      (forall i :: 0 <= i < |uuids| ==> IsActive(notices, uuids[i])) && Distinct(uuids)
  {
    if uuids != [] {
      var earlier := uuids[..|uuids| - 1];
      var uuid := uuids[|uuids| - 1];
      ExpectedNotFoundEmpty(notices, earlier);
      assert uuids == earlier + [uuid];
      DistinctSnoc(earlier, uuid);
      assert (forall i :: 0 <= i < |uuids| ==> IsActive(notices, uuids[i])) <==>
        (forall i :: 0 <= i < |earlier| ==> IsActive(notices, earlier[i])) && IsActive(notices, uuid);
    }
  }

  // --------------------------------------------------------------- store

  /** Some audit row names the notice. */
  predicate Audited(rows: seq<NoticeMutationRow>, uuid: Uuid) {
    exists k :: 0 <= k < |rows| && rows[k].noticeUuid == uuid
  }

  /**
   * Keys agree with the records; internal keys are unique and below the next
   * key to hand out; a notice's facility is a known one.
   */
  ghost predicate NoticesValid(notices: map<Uuid, Notice>, facilities: set<FacilityId>, nextNoticeId: int) {
    && (forall u | u in notices :: notices[u].uuid == u && notices[u].id < nextNoticeId)
    && (forall u, v | u in notices && v in notices && notices[u].id == notices[v].id :: u == v)
    && (forall u | u in notices && notices[u].healthFacility.Some? :: notices[u].healthFacility.value in facilities)
  }

  /**
   * Keys agree with the records and are below the next key to hand out;
   * every attachment belongs to an existing notice; attachment uuids are unique.
   */
  ghost predicate AttachmentsValid(attachments: map<int, NoticeAttachment>, notices: map<Uuid, Notice>, nextAttachmentId: int) {
    && (forall i | i in attachments :: attachments[i].id == i && i < nextAttachmentId)
    && (forall i | i in attachments :: attachments[i].noticeUuid in notices)
    && (forall i, j | i in attachments && j in attachments && attachments[i].uuid == attachments[j].uuid :: i == j)
  }

  /** Saving a notice over its own row, with the same keys and a known facility, keeps the tables valid. */
  lemma ReplaceNoticeKeepsValid(
    notices: map<Uuid, Notice>, facilities: set<FacilityId>, nextNoticeId: int,
    attachments: map<int, NoticeAttachment>, nextAttachmentId: int, notice: Notice)
    requires NoticesValid(notices, facilities, nextNoticeId)
    requires AttachmentsValid(attachments, notices, nextAttachmentId)
    requires notice.uuid in notices && notice.id == notices[notice.uuid].id
    requires notice.healthFacility.Some? ==> notice.healthFacility.value in facilities
    ensures NoticesValid(notices[notice.uuid := notice], facilities, nextNoticeId)
    ensures AttachmentsValid(attachments, notices[notice.uuid := notice], nextAttachmentId)
  {
  }

  /**
   * The notice tables. `facilities` is the set of health facility ids the
   * facility directory knows; `mutationRows` is the audit table, appended to
   * by the mutation signal handler.
   */
  class NoticeStore {
    var notices: map<Uuid, Notice>
    var attachments: map<int, NoticeAttachment>
    var facilities: set<FacilityId>
    var mutationRows: seq<NoticeMutationRow>
    var nextNoticeId: int
    var nextAttachmentId: int

    /**
     * Keys agree with the records; internal keys are unique and below the
     * next key to hand out; a notice's facility is a known one; every
     * attachment belongs to an existing notice; attachment uuids are unique.
     */
    ghost predicate Valid()
      reads this
    {
      NoticesValid(notices, facilities, nextNoticeId) && AttachmentsValid(attachments, notices, nextAttachmentId)
    }

    /** The uuids of the stored attachments. */
    function AttachmentUuids(): (uuids: set<Uuid>)
      reads this
      ensures forall i | i in attachments :: attachments[i].uuid in uuids
      ensures forall u | u in uuids :: exists i :: i in attachments && attachments[i].uuid == u
    {
      set i | i in attachments :: attachments[i].uuid
    }

    /** Empty tables over a given facility directory. */
    constructor (facilities: set<FacilityId>)
      ensures Valid()
      ensures notices == map[] && attachments == map[] && mutationRows == []
      ensures this.facilities == facilities
    {
      notices := map[];
      attachments := map[];
      this.facilities := facilities;
      mutationRows := [];
      nextNoticeId := 1;
      nextAttachmentId := 1;
    }

    /**
     * Create a notice from the input under a freshly drawn uuid. The facility
     * must exist. The save fails on an explicit null schedule flag (a NOT NULL
     * column) and on a uuid already taken (a unique column).
     */
    method CreateNotice(user: User, input: CreateNoticeInput, uuid: Uuid, now: DateTime) returns (r: Errors)
      requires Valid()
      modifies this`notices, this`nextNoticeId
      ensures Valid()
      ensures Gate(user, AddNoticePerm).Some? ==> r == Failed(CreateNoticeFailed, Gate(user, AddNoticePerm).value)
      ensures Gate(user, AddNoticePerm) == None && input.healthFacilityId !in facilities ==>
        r == Failed(CreateNoticeFailed, FacilityDoesNotExist)
      ensures (Gate(user, AddNoticePerm) == None && input.healthFacilityId in facilities
               && (input.schedulePublish.Null? || uuid in old(notices))) ==>
        r == Failed(CreateNoticeFailed, IntegrityError)
      ensures r == None <==> (Gate(user, AddNoticePerm) == None && input.healthFacilityId in facilities
                              && !input.schedulePublish.Null? && uuid !in old(notices))
      ensures r != None ==> notices == old(notices) && nextNoticeId == old(nextNoticeId)
      ensures r == None ==> nextNoticeId == old(nextNoticeId) + 1 && notices == old(notices)[uuid :=
        NewNotice(old(nextNoticeId), uuid, input.title, input.description, Some(input.priority),
          Some(input.healthFacilityId), Some(Overwrite(false, input.schedulePublish)), input.publishStartDate, now)]
      ensures r == None ==> var n := notices[uuid];
        && n.title == input.title && n.description == input.description && n.priority == input.priority
        && n.healthFacility == Some(input.healthFacilityId) && n.isActive
        && (input.schedulePublish.Absent? ==> !n.schedulePublish)
        && (input.schedulePublish.Given? ==> n.schedulePublish == input.schedulePublish.value)
        && n.publishStartDate == input.publishStartDate
    {
      var cause := Gate(user, AddNoticePerm);
      if cause.Some? {
        return Failed(CreateNoticeFailed, cause.value);
      }
      if input.healthFacilityId !in facilities {
        return Failed(CreateNoticeFailed, FacilityDoesNotExist);
      }
      if input.schedulePublish.Null? {
        return Failed(CreateNoticeFailed, IntegrityError);
      }
      var schedulePublish := if input.schedulePublish.Given? then input.schedulePublish.value else false;
      var notice := NewNotice(nextNoticeId, uuid, input.title, input.description, Some(input.priority),
        Some(input.healthFacilityId), Some(schedulePublish), input.publishStartDate, now);
      if uuid in notices {
        return Failed(CreateNoticeFailed, IntegrityError);
      }
      notices := notices[uuid := notice];
      nextNoticeId := nextNoticeId + 1;
      r := None;
    }

    /**
     * Partially update an active notice. A uuid with no active notice is
     * "Notice not found". A facility id that is null or unknown fails its
     * lookup, and a null title, description or priority fails the save; in
     * both cases nothing is saved.
     */
    method UpdateNotice(user: User, input: UpdateNoticeInput, now: DateTime) returns (r: Errors)
      requires Valid()
      modifies this`notices
      ensures Valid()
      ensures Gate(user, ChangeNoticePerm).Some? ==> r == Failed(UpdateNoticeFailed, Gate(user, ChangeNoticePerm).value)
      ensures Gate(user, ChangeNoticePerm) == None && !IsActive(old(notices), input.uuid) ==>
        r == Some([NotFound(input.uuid)])
      ensures (Gate(user, ChangeNoticePerm) == None && IsActive(old(notices), input.uuid)
               && !FacilityResolves(input.healthFacilityId, facilities)) ==>
        r == Failed(UpdateNoticeFailed, FacilityDoesNotExist)
      ensures (Gate(user, ChangeNoticePerm) == None && IsActive(old(notices), input.uuid)
               && FacilityResolves(input.healthFacilityId, facilities) && !NoNullColumn(input)) ==>
        r == Failed(UpdateNoticeFailed, IntegrityError)
      ensures r == None <==> (Gate(user, ChangeNoticePerm) == None && IsActive(old(notices), input.uuid)
                              && FacilityResolves(input.healthFacilityId, facilities) && NoNullColumn(input))
      ensures r != None ==> notices == old(notices)
      ensures r == None ==> (notices.Keys == old(notices).Keys
                             && PartiallyUpdated(old(notices)[input.uuid], notices[input.uuid], input, now)
                             && forall u | u in notices && u != input.uuid :: notices[u] == old(notices)[u])
    {
      var cause := Gate(user, ChangeNoticePerm);
      if cause.Some? {
        return Failed(UpdateNoticeFailed, cause.value);
      }
      if !IsActive(notices, input.uuid) {
        return Some([NotFound(input.uuid)]);
      }
      var notice := notices[input.uuid];
      if input.title.Given? {
        notice := notice.(title := input.title.value);
      }
      if input.description.Given? {
        notice := notice.(description := input.description.value);
      }
      if input.priority.Given? {
        notice := notice.(priority := input.priority.value);
      }
      if !input.healthFacilityId.Absent? {
        if !(input.healthFacilityId.Given? && input.healthFacilityId.value in facilities) {
          return Failed(UpdateNoticeFailed, FacilityDoesNotExist);
        }
        notice := notice.(healthFacility := Some(input.healthFacilityId.value));
      }
      if input.title.Null? || input.description.Null? || input.priority.Null? {
        return Failed(UpdateNoticeFailed, IntegrityError);
      }
      notice := notice.(updatedAt := now);
      ReplaceNoticeKeepsValid(notices, facilities, nextNoticeId, attachments, nextAttachmentId, notice);
      notices := notices[input.uuid := notice];
      r := None;
    }

    /**
     * Soft-delete a batch of notices. Each uuid is handled on its own: one
     * that does not name an active notice adds a "Notice not found" pair and
     * the rest of the batch goes on.
     */
    method DeleteNotices(user: User, uuids: seq<Uuid>, now: DateTime) returns (r: Errors)
      requires Valid()
      modifies this`notices
      ensures Valid()
      ensures Gate(user, DeleteNoticePerm).Some? ==>
        r == Failed(DeleteNoticesFailed, Gate(user, DeleteNoticePerm).value) && notices == old(notices)
      ensures Gate(user, DeleteNoticePerm) == None ==>
        var outcome := SoftDeleteAll(old(notices), uuids, now);
        notices == outcome.notices && r == (if outcome.errors == [] then None else Some(outcome.errors))
    {
      var cause := Gate(user, DeleteNoticePerm);
      if cause.Some? {
        return Failed(DeleteNoticesFailed, cause.value);
      }
      var errors: seq<ErrorPair> := [];
      var i := 0;
      while i < |uuids|
        invariant 0 <= i <= |uuids|
        invariant Valid()
        invariant SoftDeleteAll(old(notices), uuids[..i], now) == DeleteOutcome(notices, errors)
      {
        var uuid := uuids[i];
        assert uuids[..i + 1][..i] == uuids[..i];
        if IsActive(notices, uuid) {
          var notice := notices[uuid].(isActive := false, updatedAt := now);
          ReplaceNoticeKeepsValid(notices, facilities, nextNoticeId, attachments, nextAttachmentId, notice);
          notices := notices[uuid := notice];
        } else {
          errors := errors + [NotFound(uuid)];
        }
        i := i + 1;
      }
      assert uuids[..i] == uuids;
      r := if errors == [] then None else Some(errors);
    }

    /** Set the active flag of a notice, whether it is currently active or not. */
    method ToggleNoticeStatus(user: User, uuid: Uuid, isActive: bool, now: DateTime) returns (r: Errors)
      requires Valid()
      modifies this`notices
      ensures Valid()
      ensures Gate(user, ChangeNoticePerm).Some? ==> r == Failed(ToggleNoticeFailed, Gate(user, ChangeNoticePerm).value)
      ensures Gate(user, ChangeNoticePerm) == None && uuid !in old(notices) ==> r == Some([NotFound(uuid)])
      ensures r == None <==> Gate(user, ChangeNoticePerm) == None && uuid in old(notices)
      ensures r != None ==> notices == old(notices)
      ensures r == None ==> notices == old(notices)[uuid := old(notices)[uuid].(isActive := isActive, updatedAt := now)]
    {
      var cause := Gate(user, ChangeNoticePerm);
      if cause.Some? {
        return Failed(ToggleNoticeFailed, cause.value);
      }
      if uuid !in notices {
        return Some([NotFound(uuid)]);
      }
      var notice := notices[uuid];
      notice := notice.(isActive := isActive, updatedAt := now);
      ReplaceNoticeKeepsValid(notices, facilities, nextNoticeId, attachments, nextAttachmentId, notice);
      notices := notices[uuid := notice];
      r := None;
    }

    /**
     * Attach a file or URL to an existing notice, active or not. An absent or
     * empty general type becomes "test"; an absent date becomes `today`.
     */
    method CreateNoticeAttachment(user: User, input: CreateAttachmentInput, uuid: Uuid, today: Date) returns (r: Errors)
      requires Valid()
      modifies this`attachments, this`nextAttachmentId
      ensures Valid()
      ensures Gate(user, AddAttachmentPerm).Some? ==>
        r == Failed(CreateAttachmentFailed, Gate(user, AddAttachmentPerm).value)
      ensures Gate(user, AddAttachmentPerm) == None && input.noticeUuid !in notices ==>
        r == Failed(CreateAttachmentFailed, NoticeDoesNotExist)
      ensures Gate(user, AddAttachmentPerm) == None && input.noticeUuid in notices && uuid in old(AttachmentUuids()) ==>
        r == Failed(CreateAttachmentFailed, IntegrityError)
      ensures r == None <==> (Gate(user, AddAttachmentPerm) == None && input.noticeUuid in notices
                              && uuid !in old(AttachmentUuids()))
      ensures r != None ==> attachments == old(attachments) && nextAttachmentId == old(nextAttachmentId)
      ensures r == None ==> (nextAttachmentId == old(nextAttachmentId) + 1
                             && old(nextAttachmentId) !in old(attachments)
                             && attachments == old(attachments)[old(nextAttachmentId) := NewAttachment(
                                  old(nextAttachmentId), uuid, input.noticeUuid,
                                  Some(if Truthy(input.generalType) then input.generalType.value else FallbackGeneralType),
                                  input.fields, today)])
      ensures r == None ==> var a := attachments[old(nextAttachmentId)];
        && (!Truthy(input.generalType) ==> a.generalType == FallbackGeneralType)
        && (Truthy(input.generalType) ==> a.generalType == input.generalType.value)
        && (input.fields.date == None ==> a.date == today)
        && a.moduleTag == Some(DefaultModuleTag)
    {
      var cause := Gate(user, AddAttachmentPerm);
      if cause.Some? {
        return Failed(CreateAttachmentFailed, cause.value);
      }
      if input.noticeUuid !in notices {
        return Failed(CreateAttachmentFailed, NoticeDoesNotExist);
      }
      var generalType := if Truthy(input.generalType) then input.generalType.value else FallbackGeneralType;
      var attachment := NewAttachment(nextAttachmentId, uuid, input.noticeUuid, Some(generalType), input.fields, today);
      if uuid in AttachmentUuids() {
        return Failed(CreateAttachmentFailed, IntegrityError);
      }
      attachments := attachments[nextAttachmentId := attachment];
      nextAttachmentId := nextAttachmentId + 1;
      r := None;
    }

    /**
     * Overwrite every input column of the attachment with that uuid. The date
     * column is NOT NULL, so an update without a date fails on save and
     * changes nothing.
     */
    method UpdateNoticeAttachment(user: User, input: UpdateAttachmentInput) returns (r: Errors)
      requires Valid()
      modifies this`attachments
      ensures Valid()
      ensures Gate(user, ChangeAttachmentPerm).Some? ==>
        r == Failed(UpdateAttachmentFailed, Gate(user, ChangeAttachmentPerm).value)
      ensures Gate(user, ChangeAttachmentPerm) == None && input.uuid !in old(AttachmentUuids()) ==>
        r == Failed(UpdateAttachmentFailed, AttachmentDoesNotExist)
      ensures (Gate(user, ChangeAttachmentPerm) == None && input.uuid in old(AttachmentUuids())
               && input.fields.date == None) ==> r == Failed(UpdateAttachmentFailed, IntegrityError)
      ensures r == None <==> (Gate(user, ChangeAttachmentPerm) == None && input.uuid in old(AttachmentUuids())
                              && input.fields.date.Some?)
      ensures r != None ==> attachments == old(attachments)
      ensures r == None ==> forall i | i in old(attachments) && old(attachments)[i].uuid == input.uuid ::
        attachments == old(attachments)[i := Overwritten(old(attachments)[i], input)]
    {
      var cause := Gate(user, ChangeAttachmentPerm);
      if cause.Some? {
        return Failed(UpdateAttachmentFailed, cause.value);
      }
      if id :| id in attachments && attachments[id].uuid == input.uuid {
        if input.fields.date == None {
          return Failed(UpdateAttachmentFailed, IntegrityError);
        }
        var attachment := attachments[id];
        attachment := attachment.(generalType := input.generalType);
        attachment := attachment.(customType := input.fields.customType);
        attachment := attachment.(title := input.fields.title);
        attachment := attachment.(date := input.fields.date.value);
        attachment := attachment.(filename := input.fields.filename);
        attachment := attachment.(mime := input.fields.mime);
        attachment := attachment.(url := input.fields.url);
        attachment := attachment.(document := input.fields.document);
        attachments := attachments[id := attachment];
        r := None;
      } else {
        r := Failed(UpdateAttachmentFailed, AttachmentDoesNotExist);
      }
    }

    /** Remove an attachment for good: there is no soft delete for attachments. */
    method DeleteNoticeAttachment(user: User, id: int) returns (r: Errors)
      requires Valid()
      modifies this`attachments
      ensures Valid()
      ensures Gate(user, DeleteAttachmentPerm).Some? ==>
        r == Failed(DeleteAttachmentFailed, Gate(user, DeleteAttachmentPerm).value)
      ensures Gate(user, DeleteAttachmentPerm) == None && id !in old(attachments) ==>
        r == Failed(DeleteAttachmentFailed, AttachmentDoesNotExist)
      ensures r == None <==> Gate(user, DeleteAttachmentPerm) == None && id in old(attachments)
      ensures r != None ==> attachments == old(attachments)
      ensures r == None ==> attachments == old(attachments) - {id} && id !in attachments
    {
      var cause := Gate(user, DeleteAttachmentPerm);
      if cause.Some? {
        return Failed(DeleteAttachmentFailed, cause.value);
      }
      if id !in attachments {
        return Failed(DeleteAttachmentFailed, AttachmentDoesNotExist);
      }
      attachments := attachments - {id};
      r := None;
    }

    /**
     * Delete a notice row. Its attachments go with it, because their foreign
     * key cascades. The audit rows' foreign key does nothing on delete, so an
     * audit row that names the notice keeps referencing it: the database's
     * foreign-key constraint then rejects the delete, and the whole delete,
     * attachments included, is rolled back.
     */
    method DeleteNoticeCascade(uuid: Uuid) returns (r: Option<Cause>)
      requires Valid()
      modifies this`notices, this`attachments
      ensures Valid()
      ensures r.Some? <==> Audited(mutationRows, uuid)
      ensures r.Some? ==> r.value == IntegrityError && notices == old(notices) && attachments == old(attachments)
      ensures r == None ==> notices == old(notices) - {uuid}
      ensures r == None ==>
        attachments == map i | i in old(attachments) && old(attachments)[i].noticeUuid != uuid :: old(attachments)[i]
      ensures r == None ==> forall i | i in attachments :: attachments[i].noticeUuid != uuid
    {
      if Audited(mutationRows, uuid) {
        return Some(IntegrityError);
      }
      notices := notices - {uuid};
      attachments := map i | i in attachments && attachments[i].noticeUuid != uuid :: attachments[i];
      r := None;
    }
  }
}

=== FILE: schema.dfy ===
/**
 * The query side and the mutation hook of the notice module: the audit
 * fan-out that links every mutation to the notices it names, and the listing
 * of attachments behind a view permission.
 */
module NoticeSchema {
  import opened Wrappers
  import opened NoticeModels
  import opened NoticeMutations

  // ---------------------------------------------------------- audit fan-out

  /** The part of a mutation's input the audit hook reads: a batch of uuids, or one uuid. */
  datatype MutationData = MutationData(uuids: Option<seq<Uuid>>, uuid: Option<Uuid>)

  /**
   * The uuids a mutation names: the batch when it is non-empty, else the
   * single uuid when one is given, else none.
   */
  function ImpactedUuids(data: MutationData): (uuids: seq<Uuid>)
    ensures data.uuids.Some? && data.uuids.value != [] ==> uuids == data.uuids.value
    ensures (data.uuids == None || data.uuids == Some([])) && data.uuid.Some? ==> uuids == [data.uuid.value]
    ensures uuids == [] <==> (data.uuids == None || data.uuids == Some([])) && data.uuid == None
  {
    var batch := if data.uuids.Some? then data.uuids.value else [];
    if batch != [] then batch
    else if data.uuid.Some? then [data.uuid.value]
    else []
  }

  /** The stored notices among the named uuids, whatever their active flag; unknown uuids drop out. */
  function Impacted(notices: map<Uuid, Notice>, uuids: seq<Uuid>): (found: set<Uuid>)
    ensures found <= notices.Keys
    ensures forall u :: u in found <==> u in uuids && u in notices
  {
    set u | u in uuids && u in notices
  }

  /** The notices the given audit rows name. */
  function RowNotices(rows: seq<NoticeMutationRow>): set<Uuid> {
    set k | 0 <= k < |rows| :: rows[k].noticeUuid
  }

  /** Appending a row adds its notice to those the rows name. */
  lemma RowNoticesSnoc(rows: seq<NoticeMutationRow>, row: NoticeMutationRow)
    ensures RowNotices(rows + [row]) == RowNotices(rows) + {row.noticeUuid}
  {
    var all := rows + [row];
    forall u | u in RowNotices(all) ensures u in RowNotices(rows) + {row.noticeUuid} {
      var k :| 0 <= k < |all| && all[k].noticeUuid == u;
      if k < |rows| {
        assert rows[k] == all[k];
      }
    }
    forall u | u in RowNotices(rows) ensures u in RowNotices(all) {
      var k :| 0 <= k < |rows| && rows[k].noticeUuid == u;
      assert all[k] == rows[k];
    }
    assert all[|rows|] == row;
  }

  predicate OneRowPerNotice(rows: seq<NoticeMutationRow>) {
    forall j, k :: 0 <= j < k < |rows| ==> rows[j].noticeUuid != rows[k].noticeUuid
  }

  /**
   * The audit hook the module connects to the mutation-validation signal:
   * one audit row, carrying the mutation log id, for each stored notice the
   * mutation names. The audit
   * table only grows, and the hook always reports no errors. The database
   * yields the matched notices in an order of its own; here they come in the
   * order their uuids first occur in the mutation's input.
   */
  method OnNoticeMutation(store: NoticeStore, data: MutationData, mutationLogId: int) returns (r: seq<ErrorPair>)
    modifies store`mutationRows
    ensures r == []
    ensures |store.mutationRows| >= |old(store.mutationRows)|
    ensures store.mutationRows[..|old(store.mutationRows)|] == old(store.mutationRows)
    ensures ImpactedUuids(data) == [] ==> store.mutationRows == old(store.mutationRows)
    ensures var added := store.mutationRows[|old(store.mutationRows)|..];
      && RowNotices(added) == Impacted(store.notices, ImpactedUuids(data))
      && OneRowPerNotice(added)
      && forall k :: 0 <= k < |added| ==> added[k].mutationId == mutationLogId
  {
    var uuids := ImpactedUuids(data);
    if uuids == [] {
      return [];
    }
    ghost var start := |store.mutationRows|;
    var logged: set<Uuid> := {};
    var i := 0;
    while i < |uuids|
      invariant 0 <= i <= |uuids|
      invariant start <= |store.mutationRows|
      invariant store.mutationRows[..start] == old(store.mutationRows)
      invariant RowNotices(store.mutationRows[start..]) == logged == Impacted(store.notices, uuids[..i])
      invariant OneRowPerNotice(store.mutationRows[start..])
      invariant forall k :: start <= k < |store.mutationRows| ==> store.mutationRows[k].mutationId == mutationLogId
    {
      var u := uuids[i];
      assert uuids[..i + 1] == uuids[..i] + [u];
      if u in store.notices && u !in logged {
        ghost var before := store.mutationRows[start..];
        store.mutationRows := store.mutationRows + [NoticeMutationRow(u, mutationLogId)];
        assert store.mutationRows[start..] == before + [NoticeMutationRow(u, mutationLogId)];
        RowNoticesSnoc(before, NoticeMutationRow(u, mutationLogId));
        logged := logged + {u};
      }
      i := i + 1;
    }
    assert uuids[..i] == uuids;
    r := [];
  }

  // ------------------------------------------------------ attachment listing

  const ViewAttachmentPerm: string := "notice.view_notice_attachment"

  /** An attachment the listing returns: in force, and of the requested notice when one is named. */
  predicate Listed(a: NoticeAttachment, inForce: NoticeAttachment -> bool, noticeUuid: Option<Uuid>) {
    inForce(a) && (noticeUuid.Some? ==> a.noticeUuid == noticeUuid.value)
  }

  /**
   * The attachment rows that pass the validity filter and, when a notice
   * uuid is given, belong to that notice: each such row exactly as often as
   * the table holds it, and no other. The query sets no ordering, so the
   * order of the rows is not part of what the listing promises.
   */
  function AttachmentsOf(rows: seq<NoticeAttachment>, inForce: NoticeAttachment -> bool, noticeUuid: Option<Uuid>)
    : (listed: seq<NoticeAttachment>)
    ensures |listed| <= |rows|
    ensures forall a :: a in listed <==> a in rows && Listed(a, inForce, noticeUuid)
    ensures forall a :: multiset(listed)[a] == if Listed(a, inForce, noticeUuid) then multiset(rows)[a] else 0
  {
    if rows == [] then []
    else
      var rest := AttachmentsOf(rows[1..], inForce, noticeUuid);
      assert rows == [rows[0]] + rows[1..];
      if Listed(rows[0], inForce, noticeUuid) then [rows[0]] + rest else rest
  }

  /**
   * The attachment listing: a user without the view permission is refused;
   * any other gets the filtered rows.
   */
  function ResolveNoticeAttachments(
    user: User, rows: seq<NoticeAttachment>, inForce: NoticeAttachment -> bool, noticeUuid: Option<Uuid>)
    : (r: Result<seq<NoticeAttachment>, Cause>)
    ensures r.Success? <==> !user.anonymous && ViewAttachmentPerm in user.perms
    ensures r.Failure? ==> r.error == Unauthorized
    ensures r.Success? ==> r.value == AttachmentsOf(rows, inForce, noticeUuid)
    ensures r.Success? ==> forall a :: a in r.value <==> a in rows && Listed(a, inForce, noticeUuid)
    ensures r.Success? ==> forall a ::
      multiset(r.value)[a] == if Listed(a, inForce, noticeUuid) then multiset(rows)[a] else 0
  {
    assert HasPerms(user, [ViewAttachmentPerm]) <==> HasPerm(user, [ViewAttachmentPerm][0]);
    if !HasPerms(user, [ViewAttachmentPerm]) then Failure(Unauthorized)
    else Success(AttachmentsOf(rows, inForce, noticeUuid))
  }

  /** A string iterated as a permission list: one single-character permission per character. */
  function Characters(s: string): (perms: seq<string>)
    ensures |perms| == |s|
    ensures forall i :: 0 <= i < |s| ==> perms[i] == [s[i]]
  {
    seq(|s|, i requires 0 <= i < |s| => [s[i]])
  }

  /**
   * The listing as written: the permission is handed over as a bare string,
   * so it is checked character by character.
   */
  function ResolveNoticeAttachmentsAsWritten(
    user: User, rows: seq<NoticeAttachment>, inForce: NoticeAttachment -> bool, noticeUuid: Option<Uuid>)
    : (r: Result<seq<NoticeAttachment>, Cause>)
    ensures r.Success? <==> HasPerms(user, Characters(ViewAttachmentPerm))
    ensures r.Success? ==> forall a :: a in r.value <==> a in rows && Listed(a, inForce, noticeUuid)
  {
    if !HasPerms(user, Characters(ViewAttachmentPerm)) then Failure(Unauthorized)
    else Success(AttachmentsOf(rows, inForce, noticeUuid))
  }

  /** As written, the listing admits only a user who holds the one-letter permission "n" (and every other letter of the name). */
  lemma AsWrittenNeedsLetterPerms(
    user: User, rows: seq<NoticeAttachment>, inForce: NoticeAttachment -> bool, noticeUuid: Option<Uuid>)
    ensures ResolveNoticeAttachmentsAsWritten(user, rows, inForce, noticeUuid).Success? ==> "n" in user.perms
  {
    assert Characters(ViewAttachmentPerm)[0] == "n";
  }

  /** A user holding exactly the view permission is refused as written and admitted by the corrected listing. */
  lemma AsWrittenRefusesPermissionHolder(rows: seq<NoticeAttachment>, inForce: NoticeAttachment -> bool, noticeUuid: Option<Uuid>)
    ensures var holder := User(false, Some(1), {ViewAttachmentPerm});
      && ResolveNoticeAttachmentsAsWritten(holder, rows, inForce, noticeUuid).Failure?
      && ResolveNoticeAttachments(holder, rows, inForce, noticeUuid).Success?
  {
    var holder := User(false, Some(1), {ViewAttachmentPerm});
    AsWrittenNeedsLetterPerms(holder, rows, inForce, noticeUuid);
    assert "n" != ViewAttachmentPerm;
  }
}

=== FILE: wrappers.dfy ===
/** Failure-carrying values shared by the notice modules. */
module Wrappers {

  /** A value that may be absent: Python's `None` versus a present value. */
  datatype Option<+T> = None | Some(value: T)

  /** The outcome of an operation that either yields a value or raises. */
  datatype Result<+T, +E> = Success(value: T) | Failure(error: E)
}
